=== FILE: README.md ===
# Jobs page filter state and load-status model

A Dafny model of the state logic of the `Jobs` container of a React job-listing
page (`src/components/Jobs/index.js`). The container owns one state record:
the jobs and profile load statuses (`INITIAL`, `IN_PROGRESS`, `SUCCESS`,
`FAILURE`), the fetched job list and profile, and three filter fields (search
text, salary-range id, list of checked employment-type ids). The model covers:

- the initial state and `componentDidMount`;
- the employment-type toggle, the salary-id replacement and the search box;
- the jobs query URL built from a filter snapshot, with a parser as its partner;
- `getJobs` and `getProfileDetails` as start/completion transitions over an
  abstract response (`ok` flag plus a body that is JSON or malformed);
- `renderJobsList` and `renderJobsBasedOnApiStatus` as a function to a view tag;
- events (mount, checkbox, salary radio, typing, search button, retry buttons)
  that run a handler and the fetch it starts, and an invariant of every
  reachable state.

Modules: `Wrappers` (Option), `Seqs` (filter/join/split), `JobFilters`
(filters, toggle, URL), `JobsApi` (responses and field renaming), `JobsPage`
(state, transitions, dispatch, events).

Two behaviours of the code are reproduced as written:

- `getProfileDetails` sets `jobsApiStatus`, not `profileApiStatus`, to
  `IN_PROGRESS` (line 55). A profile retry therefore shows the jobs loader,
  and the jobs pane stays on it after the profile fetch completes
  (`JobsPage.ProfileRetryStrandsJobsLoader`).
- `getJobs` parses the body before looking at `response.ok` (lines 103-104).
  A malformed body leaves the jobs status at `IN_PROGRESS`, ok or not
  (`JobsPage.MalformedJobsBodyStaysLoading`). `getProfileDetails` checks `ok`
  first, so a non-ok profile response is a `FAILURE` whatever its body.

Two further facts about the code shape the model. The checked employment
types form a list in click order, not a set (lines 37-46). Typing in
the search box does not refetch (line 134); only the search button does
(line 140).

## Model

| member | source | states |
|---|---|---|
| JobsPage.InitialState | src/components/Jobs/index.js:22-30 | jobs status starts INITIAL, profile status IN_PROGRESS, list, profile and all filters empty |
| Seqs.Without | src/components/Jobs/index.js:41-43 | filtering out `t` removes every occurrence of it, keeps the membership of every other id, and takes exactly all copies of `t` out of the multiset |
| JobFilters.ToggleEmploymentType | src/components/Jobs/index.js:37-46 | `t` is in the result iff it was not in the list; other ids keep membership and relative order; an added `t` goes last; all copies are removed when present; a duplicate-free list stays duplicate-free |
| JobFilters.ToggleTwice | src/components/Jobs/index.js:37-46 | toggling twice restores the set of ids; the list is restored exactly iff `t` was absent or was the single last entry, otherwise `t` moves to the end |
| JobsPage.UpdateEmploymentTypesChecked | src/components/Jobs/index.js:37-48 | a checkbox click writes only the checked list, with the toggled value |
| JobsPage.UpdateSalaryRangeId | src/components/Jobs/index.js:51-52 | a salary selection writes only the salary id |
| JobsPage.UpdateSearchInput | src/components/Jobs/index.js:134 | a keystroke writes only the search text |
| Seqs.SplitJoin | src/components/Jobs/index.js:91 | a comma-join of a non-empty list of ids without commas splits back into the same list |
| JobFilters.JobsUrlRoundTrip | src/components/Jobs/index.js:91-94 | the URL string passed to `fetch` carries the checked list in order, the salary id and the search text, each recoverable when no value contains `&`, a type id contains no `,` and no type id is empty |
| JobFilters.UnescapedFieldsCollide | src/components/Jobs/index.js:94 | values are pasted in unescaped, so two different snapshots can produce the same URL |
| JobFilters.JobsUrlExample | src/components/Jobs/index.js:91-94 | two checked types, a salary id and a search word give `employment_type=FULLTIME,PARTTIME&minimum_package=1000000&search=engineer` after the endpoint |
| JobsApi.ToJobs | src/components/Jobs/index.js:106-115 | the mapped list has the same length and order, and each job maps back to its wire record |
| JobsApi.JobRenamingBijective | src/components/Jobs/index.js:106-115 | the job field renaming is one to one in both directions |
| JobsApi.ProfileRenamingBijective | src/components/Jobs/index.js:69-73 | the profile field renaming is one to one |
| JobsPage.StartJobs | src/components/Jobs/index.js:84 | the start of `getJobs` writes only the jobs status, to IN_PROGRESS |
| JobsPage.GetJobs | src/components/Jobs/index.js:83-122 | ok JSON gives SUCCESS and the renamed list; non-ok JSON gives FAILURE and keeps the list; a malformed body leaves IN_PROGRESS and the list; filters and profile never change |
| JobsPage.StartProfile | src/components/Jobs/index.js:55 | the start of `getProfileDetails` sets the jobs status to IN_PROGRESS and leaves the profile status as it was |
| JobsPage.GetProfileDetails | src/components/Jobs/index.js:54-80 | non-ok gives FAILURE and keeps the profile; ok JSON gives SUCCESS and the renamed profile; ok malformed writes nothing; the jobs status is left IN_PROGRESS and the list and filters untouched |
| JobsPage.CompletionsIndependent | src/components/Jobs/index.js:32-35 | the two completions write disjoint fields, so the order in which the mount's fetches complete does not matter |
| JobsPage.MountIsSequential | src/components/Jobs/index.js:32-35 | mounting equals running `getProfileDetails` and then `getJobs`, and sends the profile request then the jobs request for the current filters |
| JobsPage.MountLoadsBoth | src/components/Jobs/index.js:32-35 | mounting with two good responses ends with both statuses SUCCESS, the renamed profile and the renamed list |
| JobsPage.RenderJobsList | src/components/Jobs/index.js:188-203 | job cards iff the list is non-empty, carrying that list; the no-jobs view iff it is empty |
| JobsPage.RenderJobsBasedOnApiStatus | src/components/Jobs/index.js:232-245 | loader iff IN_PROGRESS, failure view iff FAILURE, cards or no-jobs iff SUCCESS by list emptiness, nothing iff INITIAL |
| JobsPage.OnlyTypingSendsNothing | src/components/Jobs/index.js:134-140 | typing is the only event that sends no request and it runs no fetch; a jobs request is sent by every event except typing and the profile retry, and an event sending one jobs request runs `getJobs`, one sending the profile request runs `getProfileDetails` |
| JobsPage.TypingOnlyEditsSearch | src/components/Jobs/index.js:134 | typing changes the search text and nothing else, so the jobs pane is unchanged |
| JobsPage.JobsRequestUsesUpdatedFilters | src/components/Jobs/index.js:48-52 | a jobs request is built from the filters after the event's own update |
| JobsPage.RetryRepeatsRequest | src/components/Jobs/index.js:222-225 | the retry button re-sends exactly the previous jobs request |
| JobsPage.ClearingSalaryRestoresQuery | src/components/Jobs/index.js:51-52 | from any state, selecting a salary id then clearing it sends the query of the same filters with no salary filter |
| JobsPage.ProfileRetryStrandsJobsLoader | src/components/Jobs/index.js:54-80 | a profile retry keeps the profile status until completion, shows the jobs loader, and leaves it showing after completion |
| JobsPage.MalformedJobsBodyStaysLoading | src/components/Jobs/index.js:102-104 | a malformed jobs body leaves status IN_PROGRESS and the loader shown, and keeps the list, for ok and non-ok responses |
| JobsPage.OkJobsResponseView | src/components/Jobs/index.js:104-119 | an ok jobs response shows the no-jobs view iff its list is empty, otherwise the cards of its jobs in order |
| JobsPage.NotOkJobsResponseView | src/components/Jobs/index.js:120-122 | a non-ok jobs response shows the failure view with retry |
| JobsPage.RunPreservesInv | src/components/Jobs/index.js:22-122 | every run keeps: profile status never INITIAL, profile present when its status is SUCCESS, list empty while jobs are INITIAL, checked list duplicate-free |
| JobsPage.ReachableStates | src/components/Jobs/index.js:22-48 | every state reachable from the initial one has a duplicate-free checked list and a non-INITIAL profile status |
| JobsPage.JobsNeverReturnToInitial | src/components/Jobs/index.js:83-84 | once a fetch has started, the jobs status never returns to INITIAL and the pane always shows something |

## Left out

- Network and cookie access (`fetch`, `Cookies.get`, the Authorization header): each fetch is a given `Response` value, and each request is recorded only by its URL.
- Interleaving of overlapping fetches: each event runs its fetch from start to completion. Stale completions overwriting newer ones are not modelled. The mount's two fetches are the exception: both start first, and `CompletionsIndependent` shows their completion order does not matter.
- Response shapes other than the expected ones (a missing `jobs` or `profile_details` field throws a TypeError in the code): payloads are typed records.
- The status strings are a closed datatype. Values other than the four constants never occur in the code, so the `default` branch is reached only by INITIAL.
- JSX markup, CSS, loader properties and image URLs: views are tags only.
- The misspelled call `renderJobsBasedOnAPiStatus` (line 255) and the default `Component` import (line 1): defects of the module's use of React, not of its state logic; the dispatch is modelled as defined at lines 232-245.
- The `ProfileDetails` component's own four-way switch: a render-only component with the same shape as the jobs dispatch and no state.
- `Header`, `JobCard` and `FiltersGroup` are not part of this model; job fields such as `rating` and `package_per_annum` are opaque scalars.
- A rejected `fetch` (a network error) is not a `Response`. Its effect on the state is that of an ok response whose body is `Malformed`: the jobs status stays IN_PROGRESS, and the profile fields are not written.
- Which events the page offers in which state: any event may follow any state, although the jobs retry button exists only in the failure view (lines 211-230), the profile retry only in the profile's failure view, and mounting happens once, first. "Reachable" in `JobsPage.ReachableStates` means reachable in this larger set of runs, so its invariants also hold for the real ones.
- URL parsing by `fetch`: a request is modelled as the URL string before `fetch` parses it. The parse drops a fragment after `#` (a search for `C#` sends `search=C`), percent-encodes spaces and non-ASCII characters, and the server decodes `+` and `%XX`; none of this is modelled.

=== FILE: job_filters.dfy ===
/**
  The filter part of the Jobs container's state (search text, salary range,
  checked employment types), the updates the filter controls make to it, and
  the jobs query URL built from a snapshot of it.
 */
module JobFilters {
  import opened Wrappers
  import opened Seqs

  /** The three filter fields of the container's state; the checked types are a list, in click order. */
  datatype Filters = Filters(
    searchInput: string,
    activeSalaryRangeId: string,
    employmentTypesChecked: seq<string>)

  /** All filters empty, as the container starts. */
  const Unfiltered := Filters("", "", [])

  /**
    A click on an employment-type checkbox: drops every occurrence of `t` when
    the list contains it, otherwise appends `t`.
   */
  function ToggleEmploymentType(types: seq<string>, t: string): (r: seq<string>)
    ensures t in r <==> t !in types
    ensures forall u :: u != t ==> (u in r <==> u in types)
    ensures Without(r, t) == Without(types, t)
    ensures t !in types ==> |r| == |types| + 1 && r[|types|] == t && r[..|types|] == types
    ensures t in types ==> multiset(r) == multiset(types)[t := 0]
    ensures t !in types ==> multiset(r) == multiset(types) + multiset{t}
    ensures NoDuplicates(types) ==> NoDuplicates(r)
  {
    if t in types then Without(types, t)
    else
      WithoutAppend(types, [t], t);
      assert Without([t], t) == [];
      types + [t]
  }

  /** Toggling twice restores the set of checked ids; the list itself only when `t` was absent or already last and alone. */
  lemma {:induction false} ToggleTwice(types: seq<string>, t: string)
    ensures forall u :: u in ToggleEmploymentType(ToggleEmploymentType(types, t), t) <==> u in types
    ensures t !in types ==> ToggleEmploymentType(ToggleEmploymentType(types, t), t) == types
    ensures t in types ==> ToggleEmploymentType(ToggleEmploymentType(types, t), t) == Without(types, t) + [t]
    ensures ToggleEmploymentType(ToggleEmploymentType(types, t), t) == types
            <==> t !in types || types == Without(types, t) + [t]
  {
  }

  /** The jobs endpoint together with the query's first key. */
  const JobsQueryPrefix := "https://apis.ccbp.in/jobs?"

  /**
    The URL `getJobs` requests for a filter snapshot: the checked types
    comma-joined in list order, then the salary id, then the search text,
    each pasted in without escaping.
   */
  function JobsUrl(f: Filters): string
  {
    JobsQueryPrefix
    + "employment_type=" + Join(f.employmentTypesChecked, ',')
    + "&minimum_package=" + f.activeSalaryRangeId
    + "&search=" + f.searchInput
  }

  /** `s` with the leading `p` removed, when `s` starts with `p`. */
  function StripPrefix(p: string, s: string): (r: Option<string>)
    ensures r.Some? <==> |p| <= |s| && s[..|p|] == p
    ensures r.Some? ==> p + r.value == s
  {
    if |p| <= |s| && s[..|p|] == p then
      assert s == s[..|p|] + s[|p|..];
      Some(s[|p|..])
    else None
  }

  /** The checked-types value of a query back as a list; `""` reads as no types. */
  function ParseTypes(value: string): seq<string>
  {
    if value == "" then [] else Split(value, ',')
  }

  /** The three `key=value` parameters of a jobs query back as a snapshot. */
  function ParseParams(params: seq<string>): Option<Filters>
  {
    if |params| != 3 then None
    else
      var types := StripPrefix("employment_type=", params[0]);
      var salary := StripPrefix("minimum_package=", params[1]);
      var search := StripPrefix("search=", params[2]);
      if types.Some? && salary.Some? && search.Some? then
        Some(Filters(search.value, salary.value, ParseTypes(types.value)))
      else None
  }

  /**
    Reads a filter snapshot back out of a jobs URL: the partner of `JobsUrl`,
    used to state what the URL string carries.
   */
  function ParseJobsUrl(url: string): Option<Filters>
  {
    var query := StripPrefix(JobsQueryPrefix, url);
    if query.None? then None else ParseParams(Split(query.value, '&'))
  }

  /**
    The snapshots whose URL is unambiguous: no `&` in any value, no `,` in a
    type id and no empty type id.
   */
  predicate Unambiguous(f: Filters) {
    && '&' !in f.searchInput
    && '&' !in f.activeSalaryRangeId
    && Avoids(f.employmentTypesChecked, '&')
    && Avoids(f.employmentTypesChecked, ',')
    && forall i :: 0 <= i < |f.employmentTypesChecked| ==> f.employmentTypesChecked[i] != ""
  }

  /** Prefixing by a literal without `&` keeps a value free of `&`. */
  lemma PrefixAvoids(key: string, v: string)
    requires '&' !in key && '&' !in v
    ensures '&' !in key + v
  {
  }

  /** The query part of a jobs URL is the `&`-join of its three parameters. */
  lemma JobsUrlParams(f: Filters)
    ensures JobsUrl(f) == JobsQueryPrefix + Join(Params(f), '&')
  {
    var ps := Params(f);
    assert ps[1..] == [ps[1], ps[2]];
    assert ps[1..][1..] == [ps[2]];
    assert Join(ps[1..][1..], '&') == ps[2];
    assert Join(ps[1..], '&') == ps[1] + "&" + ps[2];
    assert Join(ps, '&') == ps[0] + "&" + (ps[1] + "&" + ps[2]);
    assert "&minimum_package=" == "&" + "minimum_package=";
    assert "&search=" == "&" + "search=";
  }

  /** The three `key=value` parameters of the query for `f`, in URL order. */
  function Params(f: Filters): seq<string>
  {
    [ "employment_type=" + Join(f.employmentTypesChecked, ','),
      "minimum_package=" + f.activeSalaryRangeId,
      "search=" + f.searchInput ]
  }

  /** Each parameter value reads back as the field it came from. */
  lemma {:induction false} ParseParamsOfSnapshot(f: Filters)
    requires Unambiguous(f)
    ensures ParseParams(Params(f)) == Some(f)
  {
    var ps := Params(f);
    var joined := Join(f.employmentTypesChecked, ',');
    assert StripPrefix("employment_type=", ps[0]) == Some(joined);
    assert StripPrefix("minimum_package=", ps[1]) == Some(f.activeSalaryRangeId);
    assert StripPrefix("search=", ps[2]) == Some(f.searchInput);
    JoinEmpty(f.employmentTypesChecked, ',');
    if |f.employmentTypesChecked| > 0 {
      SplitJoin(f.employmentTypesChecked, ',');
    }
    assert ParseTypes(joined) == f.employmentTypesChecked;
  }

  /** The URL string handed to `fetch` carries the whole snapshot, in order, whenever no value contains a delimiter. */
  lemma {:induction false} JobsUrlRoundTrip(f: Filters)
    requires Unambiguous(f)
    ensures ParseJobsUrl(JobsUrl(f)) == Some(f)
  {
    var ps := Params(f);
    JoinAvoids(f.employmentTypesChecked, ',', '&');
    PrefixAvoids("employment_type=", Join(f.employmentTypesChecked, ','));
    PrefixAvoids("minimum_package=", f.activeSalaryRangeId);
    PrefixAvoids("search=", f.searchInput);
    assert Avoids(ps, '&');
    JobsUrlParams(f);
    var query := Join(ps, '&');
    assert StripPrefix(JobsQueryPrefix, JobsUrl(f)) == Some(query);
    SplitJoin(ps, '&');
    ParseParamsOfSnapshot(f);
  }

  /** Nothing is escaped: a delimiter typed into one field can shift text into another. */
  lemma UnescapedFieldsCollide()
    ensures JobsUrl(Filters("", "1&search=b", ["FULLTIME"]))
         == JobsUrl(Filters("b&search=", "1", ["FULLTIME"]))
  {
  }

  /** The worked example of the jobs query: two checked types, a salary id and a search word. */
  lemma JobsUrlExample()
    ensures JobsUrl(Filters("engineer", "1000000", ["FULLTIME", "PARTTIME"]))
         == JobsQueryPrefix + "employment_type=" + "FULLTIME,PARTTIME"
            + "&minimum_package=" + "1000000" + "&search=" + "engineer"
  {
  }
}

=== FILE: jobs_api.dfy ===
/**
  The two API responses as the Jobs container sees them, and the one-to-one
  field renaming from the API's snake_case payloads to the page's records.
 */
module JobsApi {

  /** The text of a JSON scalar the page passes through without reading it (`rating`, `package_per_annum`, ids, URLs). */
  type Scalar = string

  /** The outcome of `response.json()`: a parsed payload, or a body that is not JSON (the promise rejects). */
  datatype Body<P> = Json(payload: P) | Malformed

  /**
    A completed `fetch`: the `ok` flag and the body. Network access itself is
    not modelled; a fetch is this given value.
   */
  datatype Response<P> = Response(ok: bool, body: Body<P>)

  /** One element of `jobs` in the jobs endpoint's body, fields named as on the wire. */
  datatype RawJob = RawJob(
    company_logo_url: Scalar,
    employment_type: Scalar,
    id: Scalar,
    job_description: Scalar,
    location: Scalar,
    package_per_annum: Scalar,
    rating: Scalar,
    title: Scalar)

  /** The jobs endpoint's body `{ jobs: [...] }`. */
  datatype JobsBody = JobsBody(jobs: seq<RawJob>)

  /** A job posting as held in `jobsList`. */
  datatype Job = Job(
    companyLogoUrl: Scalar,
    employmentType: Scalar,
    id: Scalar,
    jobDescription: Scalar,
    location: Scalar,
    packagePerAnnum: Scalar,
    rating: Scalar,
    title: Scalar)

  /** `profile_details` in the profile endpoint's body, fields named as on the wire. */
  datatype RawProfile = RawProfile(name: Scalar, profile_image_url: Scalar, short_bio: Scalar)

  /** The profile endpoint's body `{ profile_details: {...} }`. */
  datatype ProfileBody = ProfileBody(profile_details: RawProfile)

  /** The profile as held in `profileDetails`. */
  datatype Profile = Profile(name: Scalar, profileImageUrl: Scalar, shortBio: Scalar)

  /** The renaming applied to each job. */
  function ToJob(raw: RawJob): Job
  {
    Job(raw.company_logo_url, raw.employment_type, raw.id, raw.job_description,
        raw.location, raw.package_per_annum, raw.rating, raw.title)
  }

  /** The renaming read backwards: the wire record a page job came from. */
  function FromJob(job: Job): RawJob
  {
    RawJob(job.companyLogoUrl, job.employmentType, job.id, job.jobDescription,
           job.location, job.packagePerAnnum, job.rating, job.title)
  }

  /** The wire jobs a page list came from. */
  function FromJobs(jobs: seq<Job>): seq<RawJob>
  {
    if |jobs| == 0 then [] else [FromJob(jobs[0])] + FromJobs(jobs[1..])
  }

  /** `jobs.map(...)`: one page job per wire job, same order, nothing lost or added. */
  function ToJobs(raws: seq<RawJob>): (jobs: seq<Job>)
    ensures |jobs| == |raws|
    ensures forall i :: 0 <= i < |raws| ==> FromJob(jobs[i]) == raws[i]
    ensures FromJobs(jobs) == raws
  {
    if |raws| == 0 then [] else [ToJob(raws[0])] + ToJobs(raws[1..])
  }

  /** The job renaming is a bijection: each direction undoes the other. */
  lemma JobRenamingBijective(raw: RawJob, job: Job)
    ensures FromJob(ToJob(raw)) == raw
    ensures ToJob(FromJob(job)) == job
    ensures ToJob(raw) == job <==> FromJob(job) == raw
  {
  }

  /** The renaming applied to the profile. */
  function ToProfile(raw: RawProfile): Profile
  {
    Profile(raw.name, raw.profile_image_url, raw.short_bio)
  }

  /** The profile renaming is a bijection. */
  lemma ProfileRenamingBijective(raw: RawProfile, p: Profile)
    ensures ToProfile(raw) == p <==> RawProfile(p.name, p.profileImageUrl, p.shortBio) == raw
  {
  }
}

=== FILE: jobs_page.dfy ===
/**
  The Jobs container: its state record, the transitions its handlers make,
  the status-to-view dispatch of the jobs pane, and user-visible events that
  run a handler together with the fetch it starts.
 */
module JobsPage {
  import opened Wrappers
  import opened Seqs
  import opened JobFilters
  import opened JobsApi

  /** `apiStatusConstants`: INITIAL, IN_PROGRESS, SUCCESS, FAILURE. */
  datatype Status = Initial | InProgress | Success | Failure

  /** The container's state; `profileDetails` is `None` while it is still the initial `{}`. */
  datatype State = State(
    jobsApiStatus: Status,
    profileApiStatus: Status,
    jobsList: seq<Job>,
    profileDetails: Option<Profile>,
    filters: Filters)

  /** The state the container is constructed with. */
  const Init := State(Initial, InProgress, [], None, Unfiltered)

  /** The initial state: jobs not started, profile shown as loading, everything else empty. */
  lemma InitialState()
    ensures Init.jobsApiStatus == Initial && Init.profileApiStatus == InProgress
    ensures Init.jobsList == [] && Init.profileDetails.None?
    ensures Init.filters.searchInput == "" && Init.filters.activeSalaryRangeId == ""
    ensures Init.filters.employmentTypesChecked == []
  {
  }

  // ---------------------------------------------------------------------------
  // Filter updates

  /** `updateEmploymentTypesChecked(t)`: only the checked list changes. */
  function UpdateEmploymentTypesChecked(s: State, t: string): (s': State)
    ensures s'.filters.employmentTypesChecked == ToggleEmploymentType(s.filters.employmentTypesChecked, t)
    ensures s'.(filters := s.filters) == s
    ensures s'.filters.searchInput == s.filters.searchInput
    ensures s'.filters.activeSalaryRangeId == s.filters.activeSalaryRangeId
  {
    s.(filters := s.filters.(employmentTypesChecked := ToggleEmploymentType(s.filters.employmentTypesChecked, t)))
  }

  /** `updateSalaryRangeId(id)`: only the salary id changes, to `id`. */
  function UpdateSalaryRangeId(s: State, id: string): (s': State)
    ensures s'.filters.activeSalaryRangeId == id
    ensures s'.(filters := s.filters) == s
    ensures s'.filters.(activeSalaryRangeId := s.filters.activeSalaryRangeId) == s.filters
  {
    s.(filters := s.filters.(activeSalaryRangeId := id))
  }

  /** The search box's `onChange`: only the search text changes, to what was typed. */
  function UpdateSearchInput(s: State, text: string): (s': State)
    ensures s'.filters.searchInput == text
    ensures s'.(filters := s.filters) == s
    ensures s'.filters.(searchInput := s.filters.searchInput) == s.filters
  {
    s.(filters := s.filters.(searchInput := text))
  }

  // ---------------------------------------------------------------------------
  // getJobs

  /** The synchronous start of `getJobs`: the jobs status becomes IN_PROGRESS, nothing else changes. */
  function StartJobs(s: State): (s': State)
    ensures s'.jobsApiStatus == InProgress
    ensures s'.(jobsApiStatus := s.jobsApiStatus) == s
  {
    s.(jobsApiStatus := InProgress)
  }

  /**
    The completion of `getJobs`. The body is parsed before `ok` is looked at,
    so a malformed body throws and leaves the state as the start left it.
   */
  function CompleteJobs(s: State, response: Response<JobsBody>): State
  {
    match response.body
    case Malformed => s
    case Json(data) =>
      if response.ok then s.(jobsList := ToJobs(data.jobs), jobsApiStatus := Success)
      else s.(jobsApiStatus := Failure)
  }

  /** `getJobs` from start to completion. */
  function GetJobs(s: State, response: Response<JobsBody>): (s': State)
    ensures s'.filters == s.filters
    ensures s'.profileApiStatus == s.profileApiStatus && s'.profileDetails == s.profileDetails
    ensures response.body.Malformed? ==> s'.jobsApiStatus == InProgress && s'.jobsList == s.jobsList
    ensures response.body.Json? && response.ok ==>
              && s'.jobsApiStatus == Success
              && |s'.jobsList| == |response.body.payload.jobs|
              && FromJobs(s'.jobsList) == response.body.payload.jobs
    ensures response.body.Json? && !response.ok ==>
              s'.jobsApiStatus == Failure && s'.jobsList == s.jobsList
    ensures s'.jobsApiStatus != Initial
  {
    CompleteJobs(StartJobs(s), response)
  }

  // ---------------------------------------------------------------------------
  // getProfileDetails

  /** The profile endpoint `getProfileDetails` requests. */
  const ProfileUrl := "https://apis.ccbp.in/profile"

  /**
    The synchronous start of `getProfileDetails`. As written it sets the JOBS
    status to IN_PROGRESS; the profile status is left as it was.
   */
  function StartProfile(s: State): (s': State)
    ensures s'.jobsApiStatus == InProgress
    ensures s'.profileApiStatus == s.profileApiStatus
    ensures s'.(jobsApiStatus := s.jobsApiStatus) == s
  {
    s.(jobsApiStatus := InProgress)
  }

  /**
    The completion of `getProfileDetails`: `ok` is checked before the body is
    parsed, so any non-ok response is a FAILURE, while an ok response with a
    malformed body throws and writes nothing.
   */
  function CompleteProfile(s: State, response: Response<ProfileBody>): State
  {
    if !response.ok then s.(profileApiStatus := Failure)
    else match response.body
      case Malformed => s
      case Json(data) =>
        s.(profileDetails := Some(ToProfile(data.profile_details)), profileApiStatus := Success)
  }

  /** `getProfileDetails` from start to completion. */
  function GetProfileDetails(s: State, response: Response<ProfileBody>): (s': State)
    ensures s'.jobsApiStatus == InProgress
    ensures s'.jobsList == s.jobsList && s'.filters == s.filters
    ensures !response.ok ==>
              s'.profileApiStatus == Failure && s'.profileDetails == s.profileDetails
    ensures response.ok && response.body.Malformed? ==>
              s'.profileApiStatus == s.profileApiStatus && s'.profileDetails == s.profileDetails
    ensures response.ok && response.body.Json? ==>
              && s'.profileApiStatus == Success
              && s'.profileDetails.Some?
              && var p := s'.profileDetails.value;
                 RawProfile(p.name, p.profileImageUrl, p.shortBio) == response.body.payload.profile_details
  {
    CompleteProfile(StartProfile(s), response)
  }

  /** The profile completion never writes the jobs fields, and the jobs completion never writes the profile fields. */
  lemma CompletionsIndependent(s: State, pr: Response<ProfileBody>, jr: Response<JobsBody>)
    ensures CompleteProfile(s, pr).jobsApiStatus == s.jobsApiStatus
    ensures CompleteProfile(s, pr).jobsList == s.jobsList
    ensures CompleteJobs(s, jr).profileApiStatus == s.profileApiStatus
    ensures CompleteJobs(s, jr).profileDetails == s.profileDetails
    ensures CompleteJobs(CompleteProfile(s, pr), jr) == CompleteProfile(CompleteJobs(s, jr), pr)
  {
  }

  // ---------------------------------------------------------------------------
  // Rendering of the jobs pane

  /** What the jobs pane shows, as a tag. */
  datatype JobsView =
    | Loader
    | FailureWithRetry
    | JobCards(jobs: seq<Job>)
    | NoJobs
    | Nothing

  /** `renderJobsList`: the cards when there is at least one job, else the no-jobs view. */
  function RenderJobsList(jobs: seq<Job>): (v: JobsView)
    ensures v.JobCards? <==> |jobs| > 0
    ensures v.NoJobs? <==> |jobs| == 0
    ensures v.JobCards? ==> v.jobs == jobs
  {
    if |jobs| > 0 then JobCards(jobs) else NoJobs
  }

  /** `renderJobsBasedOnApiStatus`: one view per jobs status; INITIAL shows nothing. */
  function RenderJobsBasedOnApiStatus(s: State): (v: JobsView)
    ensures v.Loader? <==> s.jobsApiStatus == InProgress
    ensures v.FailureWithRetry? <==> s.jobsApiStatus == Failure
    ensures v.JobCards? <==> s.jobsApiStatus == Success && |s.jobsList| > 0
    ensures v.NoJobs? <==> s.jobsApiStatus == Success && |s.jobsList| == 0
    ensures v.Nothing? <==> s.jobsApiStatus == Initial
    ensures v.JobCards? ==> v.jobs == s.jobsList
  {
    match s.jobsApiStatus
    case InProgress => Loader
    case Failure => FailureWithRetry
    case Success => RenderJobsList(s.jobsList)
    case Initial => Nothing
  }

  // ---------------------------------------------------------------------------
  // Events: a handler together with the fetch it starts, run to completion

  /** The requests the page makes, each as the URL string it hands to `fetch`. */
  datatype Request = ProfileRequest(url: string) | JobsRequest(url: string)

  /** What the user (or React) does, with the response of any fetch it starts. */
  datatype Event =
    | Mount(profileResponse: Response<ProfileBody>, jobsResponse: Response<JobsBody>)
    | CheckEmploymentType(typeId: string, jobsResponse: Response<JobsBody>)
    | SelectSalaryRange(salaryRangeId: string, jobsResponse: Response<JobsBody>)
    | TypeSearch(text: string)
    | ClickSearch(jobsResponse: Response<JobsBody>)
    | RetryJobs(jobsResponse: Response<JobsBody>)
    | RetryProfile(profileResponse: Response<ProfileBody>)

  /** The filter update an event makes before any fetch it starts. */
  function UpdateFilters(s: State, e: Event): State
  {
    match e
    case CheckEmploymentType(t, _) => UpdateEmploymentTypesChecked(s, t)
    case SelectSalaryRange(id, _) => UpdateSalaryRangeId(s, id)
    case TypeSearch(text) => UpdateSearchInput(s, text)
    case _ => s
  }

  /**
    The state after an event. `componentDidMount` starts both fetches before
    either completes; the profile completion is applied first, which
    `CompletionsIndependent` shows makes no difference.
   */
  function Step(s: State, e: Event): State
  {
    var u := UpdateFilters(s, e);
    match e
    case Mount(pr, jr) => CompleteJobs(CompleteProfile(StartJobs(StartProfile(u)), pr), jr)
    case CheckEmploymentType(_, jr) => GetJobs(u, jr)
    case SelectSalaryRange(_, jr) => GetJobs(u, jr)
    case TypeSearch(_) => u
    case ClickSearch(jr) => GetJobs(u, jr)
    case RetryJobs(jr) => GetJobs(u, jr)
    case RetryProfile(pr) => GetProfileDetails(u, pr)
  }

  /** The requests an event sends, in order; a jobs request's URL string is built from the snapshot after the event's update. */
  function Requests(s: State, e: Event): seq<Request>
  {
    var u := UpdateFilters(s, e);
    match e
    case Mount(_, _) => [ProfileRequest(ProfileUrl), JobsRequest(JobsUrl(u.filters))]
    case TypeSearch(_) => []
    case RetryProfile(_) => [ProfileRequest(ProfileUrl)]
    case _ => [JobsRequest(JobsUrl(u.filters))]
  }

  /** The state after a sequence of events. */
  function Run(s: State, events: seq<Event>): State
    decreases |events|
  {
    if |events| == 0 then s else Run(Step(s, events[0]), events[1..])
  }

  // ---------------------------------------------------------------------------
  // Properties of the event model

  /**
    Typing is the only event that sends nothing, and it runs no fetch; an event
    that sends one profile request runs `getProfileDetails`, one that sends one
    jobs request runs `getJobs`.
   */
  lemma OnlyTypingSendsNothing(s: State, e: Event)
    ensures Requests(s, e) == [] <==> e.TypeSearch?
    ensures (exists url :: JobsRequest(url) in Requests(s, e))
            <==> !e.TypeSearch? && !e.RetryProfile?
    ensures Requests(s, e) == [] ==> Step(s, e) == UpdateFilters(s, e)
    ensures Requests(s, e) == [ProfileRequest(ProfileUrl)] ==>
              Step(s, e) == GetProfileDetails(UpdateFilters(s, e), e.profileResponse)
    ensures (exists url :: Requests(s, e) == [JobsRequest(url)]) ==>
              Step(s, e) == GetJobs(UpdateFilters(s, e), e.jobsResponse)
  {
  }

  /** Typing writes the search text and nothing else: no fetch starts, no status or list moves. */
  lemma TypingOnlyEditsSearch(s: State, text: string)
    ensures Step(s, TypeSearch(text)).filters.searchInput == text
    ensures Step(s, TypeSearch(text)).(filters := s.filters) == s
    ensures RenderJobsBasedOnApiStatus(Step(s, TypeSearch(text))) == RenderJobsBasedOnApiStatus(s)
  {
  }

  /** A jobs request's URL string is built from the filters as the event left them (the `setState` callback sees the update). */
  lemma JobsRequestUsesUpdatedFilters(s: State, e: Event, url: string)
    requires JobsRequest(url) in Requests(s, e)
    ensures url == JobsUrl(Step(s, e).filters)
    ensures Step(s, e).filters == UpdateFilters(s, e).filters
  {
  }

  /** The retry button re-sends exactly the jobs request of the fetch before it. */
  lemma RetryRepeatsRequest(s: State, e: Event, url: string, r: Response<JobsBody>)
    requires JobsRequest(url) in Requests(s, e)
    ensures Requests(Step(s, e), RetryJobs(r)) == [JobsRequest(url)]
  {
  }

  /** Selecting a salary range and then clearing it sends the query with no salary filter, from any state. */
  lemma ClearingSalaryRestoresQuery(s: State, id: string, r1: Response<JobsBody>, r2: Response<JobsBody>)
    ensures Requests(Step(s, SelectSalaryRange(id, r1)), SelectSalaryRange("", r2))
         == [JobsRequest(JobsUrl(s.filters.(activeSalaryRangeId := "")))]
  {
  }

  /**
    A profile retry puts the JOBS pane on the loader and leaves it there once
    the profile fetch completes, whatever its outcome; the profile status is
    untouched until completion.
   */
  lemma ProfileRetryStrandsJobsLoader(s: State, r: Response<ProfileBody>)
    ensures StartProfile(s).profileApiStatus == s.profileApiStatus
    ensures RenderJobsBasedOnApiStatus(StartProfile(s)) == Loader
    ensures RenderJobsBasedOnApiStatus(Step(s, RetryProfile(r))) == Loader
    ensures Step(s, RetryProfile(r)).jobsList == s.jobsList
  {
  }

  /** A jobs body that is not JSON leaves the pane on the loader, whether or not the response was ok. */
  lemma MalformedJobsBodyStaysLoading(s: State, ok: bool)
    ensures GetJobs(s, Response(ok, Malformed)).jobsApiStatus == InProgress
    ensures RenderJobsBasedOnApiStatus(GetJobs(s, Response(ok, Malformed))) == Loader
    ensures GetJobs(s, Response(ok, Malformed)).jobsList == s.jobsList
  {
  }

  /** An ok jobs response shows the no-jobs view exactly when its list is empty, else its jobs in order. */
  lemma OkJobsResponseView(s: State, raws: seq<RawJob>)
    ensures RenderJobsBasedOnApiStatus(GetJobs(s, Response(true, Json(JobsBody(raws))))) == NoJobs
            <==> |raws| == 0
    ensures |raws| > 0 ==>
              RenderJobsBasedOnApiStatus(GetJobs(s, Response(true, Json(JobsBody(raws)))))
              == JobCards(ToJobs(raws))
  {
  }

  /** A failed jobs response shows the failure view with its retry button. */
  lemma NotOkJobsResponseView(s: State, body: JobsBody)
    ensures RenderJobsBasedOnApiStatus(GetJobs(s, Response(false, Json(body)))) == FailureWithRetry
  {
  }

  /** Mounting with two good responses loads both the profile and the jobs. */
  lemma MountLoadsBoth(s: State, p: ProfileBody, jobs: JobsBody)
    ensures Step(s, Mount(Response(true, Json(p)), Response(true, Json(jobs)))).profileApiStatus == Success
    ensures Step(s, Mount(Response(true, Json(p)), Response(true, Json(jobs)))).profileDetails
         == Some(ToProfile(p.profile_details))
    ensures Step(s, Mount(Response(true, Json(p)), Response(true, Json(jobs)))).jobsApiStatus == Success
    ensures Step(s, Mount(Response(true, Json(p)), Response(true, Json(jobs)))).jobsList == ToJobs(jobs.jobs)
  {
  }

  /** What holds in every state the container can reach from its initial state. */
  ghost predicate Inv(s: State) {
    && s.profileApiStatus != Initial
    && (s.profileApiStatus == Success ==> s.profileDetails.Some?)
    && (s.jobsApiStatus == Initial ==> s.jobsList == [])
    && NoDuplicates(s.filters.employmentTypesChecked)
  }

  /** The initial state satisfies the invariant. */
  lemma InitSatisfiesInv()
    ensures Inv(Init)
  {
  }

  /** Every event preserves the invariant. */
  lemma StepPreservesInv(s: State, e: Event)
    requires Inv(s)
    ensures Inv(Step(s, e))
  {
  }

  /** Every run of events from a state satisfying the invariant ends in one that does. */
  lemma {:induction false} RunPreservesInv(s: State, events: seq<Event>)
    requires Inv(s)
    ensures Inv(Run(s, events))
    decreases |events|
  {
    if |events| > 0 {
      StepPreservesInv(s, events[0]);
      RunPreservesInv(Step(s, events[0]), events[1..]);
    }
  }

  /** Once any fetch has started the jobs pane never returns to showing nothing. */
  lemma {:induction false} JobsNeverReturnToInitial(s: State, events: seq<Event>)
    requires s.jobsApiStatus != Initial
    ensures Run(s, events).jobsApiStatus != Initial
    ensures RenderJobsBasedOnApiStatus(Run(s, events)) != Nothing
    decreases |events|
  {
    if |events| > 0 {
      JobsNeverReturnToInitial(Step(s, events[0]), events[1..]);
    }
  }

  /** Every reachable state's checked list is duplicate-free and its profile pane never shows nothing. */
  lemma ReachableStates(events: seq<Event>)
    ensures NoDuplicates(Run(Init, events).filters.employmentTypesChecked)
    ensures Run(Init, events).profileApiStatus != Initial
  {
    InitSatisfiesInv();
    RunPreservesInv(Init, events);
  }

  /** Mounting runs `getProfileDetails` and then `getJobs`, in the order `componentDidMount` calls them. */
  lemma MountIsSequential(s: State, pr: Response<ProfileBody>, jr: Response<JobsBody>)
    ensures Step(s, Mount(pr, jr)) == GetJobs(GetProfileDetails(s, pr), jr)
    ensures Requests(s, Mount(pr, jr)) == [ProfileRequest(ProfileUrl), JobsRequest(JobsUrl(s.filters))]
  {
  }
}

=== FILE: seqs.dfy ===
/**
  Sequence and string helpers that mirror the JavaScript array and string methods
  the Jobs container relies on: `Array.prototype.filter` with `!==`,
  `Array.prototype.join` and its inverse `String.prototype.split`.
 */
module Seqs {

  /** Every element occurs at most once. */
  ghost predicate NoDuplicates(xs: seq<string>) {
    forall x :: multiset(xs)[x] <= 1
  }

  /** `xs.filter(x => x !== t)`: every occurrence of `t` dropped, the rest kept in order. */
  function Without(xs: seq<string>, t: string): (r: seq<string>)
    ensures t !in r
    ensures forall u :: u != t ==> (u in r <==> u in xs)
    ensures multiset(r) == multiset(xs)[t := 0]
    ensures t !in xs ==> r == xs
    ensures |r| <= |xs|
  {
    if |xs| == 0 then []
    else
      assert xs == [xs[0]] + xs[1..];
      if xs[0] == t then Without(xs[1..], t)
      else [xs[0]] + Without(xs[1..], t)
  }

  /** Filtering distributes over concatenation. */
  lemma {:induction false} WithoutAppend(xs: seq<string>, ys: seq<string>, t: string)
    ensures Without(xs + ys, t) == Without(xs, t) + Without(ys, t)
    decreases |xs|
  {
    if |xs| == 0 {
      assert xs + ys == ys;
    } else {
      assert (xs + ys)[1..] == xs[1..] + ys;
      WithoutAppend(xs[1..], ys, t);
    }
  }

  /** `xs.join(sep)` in JavaScript: the elements with one separator between neighbours. */
  function Join(xs: seq<string>, sep: char): string
  {
    if |xs| == 0 then ""
    else if |xs| == 1 then xs[0]
    else xs[0] + [sep] + Join(xs[1..], sep)
  }

  /** `s.split(sep)` in JavaScript: the maximal separator-free pieces, at least one. */
  function Split(s: string, sep: char): (r: seq<string>)
    ensures |r| >= 1
  {
    if |s| == 0 then [""]
    else
      var rest := Split(s[1..], sep);
      if s[0] == sep then [""] + rest
      else [[s[0]] + rest[0]] + rest[1..]
  }

  /** The character `c` occurs in no element of `xs`. */
  predicate Avoids(xs: seq<string>, c: char) {
    forall i :: 0 <= i < |xs| ==> c !in xs[i]
  }

  /** A separator-free string splits into itself. */
  lemma {:induction false} SplitNoSeparator(w: string, sep: char)
    requires sep !in w
    ensures Split(w, sep) == [w]
    decreases |w|
  {
    if |w| > 0 {
      SplitNoSeparator(w[1..], sep);
      assert [w[0]] + w[1..] == w;
    }
  }

  /** Splitting a separator-free head followed by a separator peels off that head. */
  lemma {:induction false} SplitHead(w: string, sep: char, rest: string)
    requires sep !in w
    ensures Split(w + [sep] + rest, sep) == [w] + Split(rest, sep)
    decreases |w|
  {
    var s := w + [sep] + rest;
    if |w| == 0 {
      assert s[0] == sep && s[1..] == rest;
    } else {
      assert s[0] == w[0] && s[1..] == w[1..] + [sep] + rest;
      SplitHead(w[1..], sep, rest);
      assert [w[0]] + w[1..] == w;
    }
  }

  /** A separator occurs in a join only as a separator or inside an element. */
  lemma {:induction false} JoinAvoids(xs: seq<string>, sep: char, c: char)
    requires c != sep && Avoids(xs, c)
    ensures c !in Join(xs, sep)
    decreases |xs|
  {
    if |xs| > 1 {
      JoinAvoids(xs[1..], sep, c);
      assert Join(xs, sep) == xs[0] + [sep] + Join(xs[1..], sep);
    }
  }

  /** A join of non-empty elements is empty exactly when there are no elements. */
  lemma JoinEmpty(xs: seq<string>, sep: char)
    requires forall i :: 0 <= i < |xs| ==> xs[i] != ""
    ensures Join(xs, sep) == "" <==> |xs| == 0
  {
  }

  /** Split undoes Join when no element contains the separator. */
  lemma {:induction false} SplitJoin(xs: seq<string>, sep: char)
    requires |xs| >= 1 && Avoids(xs, sep)
    ensures Split(Join(xs, sep), sep) == xs
    decreases |xs|
  {
    if |xs| == 1 {
      SplitNoSeparator(xs[0], sep);
    } else {
      SplitJoin(xs[1..], sep);
      SplitHead(xs[0], sep, Join(xs[1..], sep));
      assert [xs[0]] + xs[1..] == xs;
    }
  }
}

=== FILE: wrappers.dfy ===
/** The optional-value datatype used across the model. */
module Wrappers {

  /** A value that may be absent: `None` stands for JavaScript's `{}`/`undefined` placeholders. */
  datatype Option<+T> = None | Some(value: T)
}
